=== FILE: README.md ===
# InformationMiner, modelled in Dafny

`InformationMiner` runs a small language pipeline over a text: tokenize, tag parts of
speech (German or English tagger), chunk named entities, extract the entity names, and
build topics. The steps themselves belong to NLTK and scikit-learn. The code the
repository owns is what this project models:

- `extract_recurse`, the walk over a chunk tree that collects entity names
  (`entities.dfy`, module `Entities`);
- the result cache: `get_file`, `save`, `get_cached` and `exec_cached_func`, over an output
  directory modelled as a map from file names to stored lists (`cache.dfy`, module `Cache`);
- the constructor's text normalisation and the stage sequence of `process` with its
  language dispatch (`miner.dfy`, module `Miner`).

`strings.dfy` (module `Strings`) holds the Python built-ins the walk uses: the substring
test `p in s`, `sep.join(parts)` and `list(set(xs))`. `errors.dfy` (module `Errors`) holds
the exceptions and the `Option`/`Result` wrappers.

Everything is a pure function over immutable values. The miner object is the `Miner.State`
record. A call of `process` returns the new record together with the exception it raised,
if any. The library steps are the fields of `Miner.Library`, total functions the model
does not interpret.

Two behaviours of the code, modelled as written:

- `get_file` parses as `(prefix + outfile + '.pickle') if binary else '.json'`. So every
  non-binary stage (tokens, tags, entity names, topics) reads and writes the same file
  `.json`, whatever its prefix. `Miner.JsonStagesEchoTokens` shows the effect: a saving
  run without `force_create`, on non-empty text, that starts without that file stores the
  tokens there, and the tagging, entity and topic stages then all load the tokens back. The chunker therefore receives plain token
  lists instead of (word, tag) pairs.
- `process(text)` stores a truthy `text` as it is and does not wrap a string in a list, as
  the constructor does. A string given to `process` is therefore walked character by
  character (`Miner.Elements`).

## Model

| member | source | states |
|---|---|---|
| Strings.Contains | informationminer/InformationMiner.py:131 | the substring test `'NE' in tag` holds exactly when some position of the tag starts a copy of `NE` |
| Strings.Join | informationminer/InformationMiner.py:127 | `' '.join(words)` is empty for no words; otherwise it starts with the first word, and its length is the words' total length plus one separator between each pair of neighbours |
| Strings.JoinSnoc | informationminer/InformationMiner.py:127 | joining two or more parts gives the join of all but the last, then the separator, then the last part; with the one-part case this fixes every character of `' '.join(words)` |
| Strings.Deduplicate | informationminer/InformationMiner.py:133 | `list(set(names))` has no repeated element and holds exactly the elements of `names` |
| Entities.Words | informationminer/InformationMiner.py:127 | `[t[0] for t in tree]` over leaves: one word per leaf, in order |
| Entities.ChunkText | informationminer/InformationMiner.py:127 | an entity chunk's name is empty for no leaves, the word itself for one leaf, and otherwise the name of all but the last leaf, a space, then the last word |
| Entities.ExtractRecurse | informationminer/InformationMiner.py:123-133 | on a tree of the shape the chunker produces, the result has no duplicates, and a name is in it exactly when the tree or one of its descendants names it by itself |
| Entities.ExtendChildren | informationminer/InformationMiner.py:128-129 | the names gathered from the children are exactly those some child mentions |
| Entities.LeafNames | informationminer/InformationMiner.py:130-132 | a leaf `(word, tag)` gives `[word]` when `tag` contains `NE` and nothing otherwise |
| Entities.NodeNames | informationminer/InformationMiner.py:125-129 | a labelled node's names are its space-joined words (unless it is `S`) together with every name of every child, and nothing else |
| Entities.SentenceRootAddsNothing | informationminer/InformationMiner.py:126-129 | an `S` node contributes no name of its own: its names are exactly its children's |
| Entities.ExtractedIffNamedBelow | informationminer/InformationMiner.py:123-133 | a name is extracted exactly when some leaf of the tree is a proper noun with that word, or some entity chunk of the tree has that joined text |
| Entities.SubtreeNamesIncluded | informationminer/InformationMiner.py:128-129 | every name extracted from a part of the tree is also extracted from the whole tree |
| Cache.GetFile | informationminer/InformationMiner.py:137-138 | a binary stage's file is prefix + outfile + ".pickle"; every other stage's file is ".json" |
| Cache.JsonStagesShareFile | informationminer/InformationMiner.py:138 | every non-binary stage names the file `.json`, independent of prefix and output name |
| Cache.BinaryFilesDistinct | informationminer/InformationMiner.py:138 | binary stages with different prefixes name different files, and no binary file is `.json` |
| Cache.Save | informationminer/InformationMiner.py:140-153 | with saving off nothing changes; an existing file is overwritten only when overwriting is forced; otherwise the stage's file holds the data; no other file changes |
| Cache.GetCached | informationminer/InformationMiner.py:155-165 | returns the stored list exactly when the file exists and overwriting is not forced, and nothing otherwise |
| Cache.SaveThenGetCached | informationminer/InformationMiner.py:140-165 | what `save` writes to an absent file, `get_cached` reads back, unless overwriting is forced, in which case nothing is read |
| Cache.ApplyEach | informationminer/InformationMiner.py:173-176 | the stage loop succeeds exactly when `func` succeeds on every element; then the result has the length of `data` and its i-th element is `func(data[i])`; otherwise it raises the first element's exception |
| Cache.ExecCachedFunc | informationminer/InformationMiner.py:167-179 | a non-empty cache hit is returned unchanged, without applying `func` or writing; an empty or missing cache computes `func` over `data` and saves the result under the same prefix and binary flag; `None` data raises only on a miss |
| Cache.ForceCreateRecomputes | informationminer/InformationMiner.py:155-179 | with overwriting forced, every call computes `func` over `data`, whatever the directory holds |
| Cache.LaterStageReadsSavedFile | informationminer/InformationMiner.py:167-179 | after a stage computed and saved a non-empty list, any later stage naming the same file returns that list, ignores its own input and function, and writes nothing |
| Cache.SecondRunIsCacheHit | informationminer/InformationMiner.py:167-179 | running the same stage twice: the second run returns what the first computed and changes nothing |
| Cache.JsonStagesShareCache | informationminer/InformationMiner.py:137-179 | once any non-binary stage has saved a non-empty list, every non-binary stage, whatever its prefix, returns that list |
| Miner.Create | informationminer/InformationMiner.py:19-41 | a single string is stored as a one-element list, any other text unchanged; no stage result exists yet; the settings are kept |
| Miner.Elements | informationminer/InformationMiner.py:172-174 | iterating a string yields its one-character strings, a list its items; `None` cannot be iterated |
| Miner.Tokenize | informationminer/InformationMiner.py:62-68 | the tokens are cached under "01_token_" as a non-binary stage; on a miss each text element is tokenized with the miner's language and the result saved under that prefix; `None` text raises |
| Miner.TagPosGer | informationminer/InformationMiner.py:78-84 | the tags are cached under "02_pos_" as a non-binary stage; on a miss each token list is tagged by the German tagger and the result saved |
| Miner.TagPosEn | informationminer/InformationMiner.py:86-92 | the tags are cached under the same "02_pos_" as a non-binary stage; on a miss each token list is tagged by the English tagger and the result saved |
| Miner.NeChunk | informationminer/InformationMiner.py:70-76 | the chunks are cached under "03_chunk_" as the only binary stage; on a miss each tagged list is chunked and the result saved |
| Miner.ExtractEntityNames | informationminer/InformationMiner.py:94-100 | the entity names are cached under "04_ne_" as a non-binary stage; on a miss the stage succeeds exactly when every chunk value is a well-formed tree, and then saves each tree's names |
| Miner.Nmf | informationminer/InformationMiner.py:102-108 | the topics are cached under "05_nmf" as a non-binary stage; on a miss the topic model runs on each text element, not on the tokens, with the miner's language |
| Miner.ExtractValue | informationminer/InformationMiner.py:94-100 | the entity stage's per-element step succeeds exactly on well-formed chunk trees and then yields a duplicate-free list of the tree's names |
| Miner.Process | informationminer/InformationMiner.py:43-58 | a falsy argument keeps the stored text, a truthy one replaces it; the settings never change; an unknown language raises and leaves tags, chunks, entity names and topics untouched; a run without exception sets every stage result |
| Miner.ProcessFromTagging | informationminer/InformationMiner.py:48-58 | an unknown language raises at once and changes nothing; otherwise the tokens and settings are kept |
| Miner.ProcessFromChunking | informationminer/InformationMiner.py:56-58 | chunking and the later stages keep the tokens, tags and settings |
| Miner.ProcessFromEntities | informationminer/InformationMiner.py:57-58 | entity extraction and topic modelling keep the earlier results and settings |
| Miner.ProcessFromTopics | informationminer/InformationMiner.py:58 | topic modelling keeps every earlier result and the settings |
| Miner.GermanIgnoresEnglishTagger | informationminer/InformationMiner.py:48-49 | a German miner's outcome does not depend on the English tagger |
| Miner.EnglishIgnoresGermanTagger | informationminer/InformationMiner.py:50-51 | an English miner's outcome does not depend on the German tagger |
| Miner.UnknownLanguageStopsAfterTokens | informationminer/InformationMiner.py:47-56 | for any other language only the tokenizer can affect the outcome, and once tokenizing succeeds the error is the language error |
| Miner.JsonStagesEchoTokens | informationminer/InformationMiner.py:62-108 | a saving run without `.json` in the directory sets tags, entity names and topics all equal to the tokens; unless the chunk file is already cached, each chunk value is the chunker applied to a token list, not to a tagged list; the run raises nothing only because the modelled chunker is total and the modelled output directory accepts every write |
| Miner.FreshFromEntities | informationminer/InformationMiner.py:57-58 | without saving and on an empty directory, the entity stage walks every chunk tree for its names and nothing raises |
| Miner.FreshFromChunking | informationminer/InformationMiner.py:56-58 | without saving and on an empty directory, each tagged list is chunked and each resulting tree walked for its names |
| Miner.FreshFromTagging | informationminer/InformationMiner.py:48-58 | without saving and on an empty directory, each token list is tagged by the language's tagger, then chunked and walked |
| Miner.FreshRunExtractsEntities | informationminer/InformationMiner.py:43-100 | a run that saves nothing on an empty directory tokenizes each element, tags each token list with the language's tagger, chunks each tagged list and walks each chunk tree for its entity names |

## Left out

- NLTK tokenizing, English POS tagging and named-entity chunking, and the German tagger
  of `POSTagger.py`: foreign library calls, modelled as the uninterpreted total functions of
  `Miner.Library`. The model does not let them raise.
- `nonnegative_matrix_factorization`: scikit-learn NMF and a numpy sort over
  floating-point weights. It is the uninterpreted `topicModel` of `Miner.Library`.
- The file system and serialisation. The output directory is a map from file names to
  the stored lists. Pickle and JSON are the identity here; the JSON round trip that turns
  tuples into lists is not modelled.
- `os.makedirs` in the constructor, and with it `outdir`. The test `not self.outdir.exists`
  looks at a bound method, which is always truthy, so the directory is never created.
- Logging, the progress bar, time measurement and the `__main__` block, which reads a PDF
  and `input.txt`.
- `POSTagger.py`: training and loading the German classifier. This is I/O and machine
  learning glue with no logic of its own to state. `setup.py` and `__init__.py` hold
  packaging metadata and re-exports.
- Strings.Deduplicate: Python lists a set in hash order, which varies between runs. This
  definition lists first occurrences in order. No contract fixes the order of a name list:
  the entity-name contracts state only that each name occurs once and which names occur.
- Entities.ExtractRecurse: only trees of the shape `ne_chunk` produces are covered. Every
  label is non-empty, and a node other than `S` holds only `(word, tag)` leaves. An empty
  label, which the source would treat as a leaf, and a nested chunk, whose words cannot be
  joined, are outside the model.
- Miner.ExtractValue: a stage input that is not a tree of that shape gives the error
  `BadShape`. The source's behaviour on such a value is not modelled.
- Cache.Save: the store stands for an output directory that already exists. The constructor
  never creates it, because its test reads a bound method instead of calling `exists()`. So
  in the source a save into a missing directory, such as the default "output" on a fresh
  checkout, raises `FileNotFoundError` when it opens the file. The model does not include
  that error.
- Miner.JsonStagesEchoTokens: the conclusion that the run raises nothing relies on two
  things. The output directory must already exist, as the `Cache.Save` line says. And the
  modelled chunker must be total. In this run `nltk.ne_chunk` gets untagged token lists, and
  whether it then raises is library behaviour the model does not cover. The lemma states
  which input the chunker gets, not what the chunker does with it.
- Miner.Create: only three kinds of `text` are modelled: a string, a list of strings and
  `None`. Other iterables are not.

=== FILE: cache.dfy ===
/** The on-disk cache of stage results: `get_file`, `save`, `get_cached` and
    `exec_cached_func`. The output directory is an abstract map from file names to the
    stored lists; serialisation is the identity. */
module Cache {
  import opened Errors

  /** The miner settings the cache consults. */
  datatype Config = Config(outfile: string, saveOutput: bool, forceCreate: bool)

  /** The contents of the output directory: file name to stored list. */
  type Store<V> = map<string, seq<V>>

  /** The result of running a stage: what it returned or raised, and the directory after it. */
  datatype Step<V> = Step(result: Result<seq<V>>, store: Store<V>)

  /** `get_file`. The conditional binds looser than `+`, so a binary stage gets
      `prefix + outfile + ".pickle"` while every non-binary stage gets the bare name ".json". */
  function GetFile(cfg: Config, prefix: string, binary: bool): (file: string)
    ensures binary ==> file == prefix + cfg.outfile + ".pickle"
    ensures !binary ==> file == ".json"
  {
    if binary then prefix + cfg.outfile + ".pickle" else ".json"
  }

  /** `save`: writes `data` to the stage's file when saving is on and the file is absent
      or overwriting is forced; otherwise leaves the directory as it is. */
  function Save<V>(cfg: Config, store: Store<V>, data: seq<V>, prefix: string, binary: bool): (store': Store<V>)
    ensures !cfg.saveOutput ==> store' == store
    ensures GetFile(cfg, prefix, binary) in store && !cfg.forceCreate ==> store' == store
    ensures cfg.saveOutput && (GetFile(cfg, prefix, binary) !in store || cfg.forceCreate) ==>
              GetFile(cfg, prefix, binary) in store' && store'[GetFile(cfg, prefix, binary)] == data
    ensures store'.Keys <= store.Keys + {GetFile(cfg, prefix, binary)}
    ensures forall f :: f in store && f != GetFile(cfg, prefix, binary) ==> f in store' && store'[f] == store[f]
  {
    if !cfg.saveOutput then store
    else
      var file := GetFile(cfg, prefix, binary);
      if file in store && !cfg.forceCreate then store
      else store[file := data]
  }

  /** `get_cached`: the stored list of the stage's file, or nothing when the file is absent
      or overwriting is forced. */
  function GetCached<V>(cfg: Config, store: Store<V>, prefix: string, binary: bool): (cached: Option<seq<V>>)
    ensures cached.Some? <==> GetFile(cfg, prefix, binary) in store && !cfg.forceCreate
    ensures cached.Some? ==> cached.value == store[GetFile(cfg, prefix, binary)]
  {
    var file := GetFile(cfg, prefix, binary);
    if file in store && !cfg.forceCreate then Some(store[file]) else None
  }

  /** The stage loop `for d in data: res.append(func(d))`: applies `func` to each element in
      order and stops at the first exception. */
  function ApplyEach<D, V>(func: D -> Result<V>, data: seq<D>): (r: Result<seq<V>>)
    ensures r.Ok? <==> forall i :: 0 <= i < |data| ==> func(data[i]).Ok?
    ensures r.Ok? ==> |r.value| == |data| && forall i :: 0 <= i < |data| ==> func(data[i]) == Ok(r.value[i])
    ensures r.Err? ==> exists i :: 0 <= i < |data| && func(data[i]) == Err(r.error) &&
                                   forall j :: 0 <= j < i ==> func(data[j]).Ok?
  {
    if data == [] then Ok([])
    else
      match func(data[0])
      case Err(e) => Err(e)
      case Ok(v) =>
        var rest := ApplyEach(func, data[1..]);
        match rest
        case Err(e) =>
          ghost var i :| 0 <= i < |data[1..]| && func(data[1..][i]) == Err(e) &&
                         forall j :: 0 <= j < i ==> func(data[1..][j]).Ok?;
          assert func(data[i + 1]) == Err(e);
          Err(e)
        case Ok(vs) => Ok([v] + vs)
  }

  /** A cached value counts as a hit only when it is present and non-empty (the truth test
      on the loaded list). */
  predicate IsHit<V>(cached: Option<seq<V>>)
  {
    cached.Some? && cached.value != []
  }

  /** `exec_cached_func`: returns the cached list of the stage's file on a non-empty hit;
      otherwise applies `func` to every element of `data` and saves the new list. A `data`
      of `None` raises only when the cache misses, where its length is taken. */
  function ExecCachedFunc<D, V>(cfg: Config, store: Store<V>, data: Option<seq<D>>, prefix: string,
                                func: D -> Result<V>, binary: bool): (step: Step<V>)
    ensures IsHit(GetCached(cfg, store, prefix, binary)) ==>
              step == Step(Ok(store[GetFile(cfg, prefix, binary)]), store)
    ensures !IsHit(GetCached(cfg, store, prefix, binary)) && data.None? ==>
              step == Step(Err(NotIterable), store)
    ensures !IsHit(GetCached(cfg, store, prefix, binary)) && data.Some? ==>
              && step.result == ApplyEach(func, data.value)
              && step.store == (if step.result.Ok? then Save(cfg, store, step.result.value, prefix, binary) else store)
  {
    var cached := GetCached(cfg, store, prefix, binary);
    if IsHit(cached) then Step(Ok(cached.value), store)
    else if data.None? then Step(Err(NotIterable), store)
    else
      match ApplyEach(func, data.value)
      case Err(e) => Step(Err(e), store)
      case Ok(res) => Step(Ok(res), Save(cfg, store, res, prefix, binary))
  }

  /** Every non-binary stage names the same file, whatever its prefix or output name. */
  lemma JsonStagesShareFile(cfg1: Config, prefix1: string, cfg2: Config, prefix2: string)
    ensures GetFile(cfg1, prefix1, false) == GetFile(cfg2, prefix2, false) == ".json"
  {
  }

  /** Binary stages with different prefixes name different files, and no binary file is
      the shared non-binary one. */
  lemma BinaryFilesDistinct(cfg: Config, prefix1: string, prefix2: string, other: string)
    ensures prefix1 != prefix2 ==> GetFile(cfg, prefix1, true) != GetFile(cfg, prefix2, true)
    ensures GetFile(cfg, prefix1, true) != GetFile(cfg, other, false)
  {
    var tail := cfg.outfile + ".pickle";
    assert GetFile(cfg, prefix1, true) == prefix1 + tail;
    assert GetFile(cfg, prefix2, true) == prefix2 + tail;
    if prefix1 + tail == prefix2 + tail {
      assert |prefix1| == |prefix2|;
      assert prefix1 == (prefix1 + tail)[..|prefix1|];
      assert prefix2 == (prefix2 + tail)[..|prefix2|];
    }
    var f := GetFile(cfg, prefix1, true);
    assert f[|f| - 1] == 'e';
  }

  /** What `save` writes, `get_cached` reads back, unless overwriting is forced. */
  lemma SaveThenGetCached<V>(cfg: Config, store: Store<V>, data: seq<V>, prefix: string, binary: bool)
    requires cfg.saveOutput && GetFile(cfg, prefix, binary) !in store
    ensures GetCached(cfg, Save(cfg, store, data, prefix, binary), prefix, binary) ==
              if cfg.forceCreate then None else Some(data)
  {
  }

  /** With overwriting forced the cache is never read: every call recomputes. */
  lemma ForceCreateRecomputes<D, V>(cfg: Config, store: Store<V>, data: seq<D>, prefix: string,
                                    func: D -> Result<V>, binary: bool)
    requires cfg.forceCreate
    ensures ExecCachedFunc(cfg, store, Some(data), prefix, func, binary).result == ApplyEach(func, data)
  {
  }

  /** A stage that missed, computed a non-empty list and saved it, is answered from the file
      by any later stage that names the same file: that stage returns the saved list,
      ignores its own input and function, and leaves the directory unchanged. */
  lemma LaterStageReadsSavedFile<D, E, V>(cfg: Config, store: Store<V>,
                                          data1: seq<D>, prefix1: string, func1: D -> Result<V>,
                                          data2: Option<seq<E>>, prefix2: string, func2: E -> Result<V>,
                                          binary: bool)
    requires cfg.saveOutput && !cfg.forceCreate
    requires GetFile(cfg, prefix1, binary) !in store
    requires GetFile(cfg, prefix1, binary) == GetFile(cfg, prefix2, binary)
    requires ApplyEach(func1, data1).Ok? && data1 != []
    ensures var first := ExecCachedFunc(cfg, store, Some(data1), prefix1, func1, binary);
            ExecCachedFunc(cfg, first.store, data2, prefix2, func2, binary) == Step(first.result, first.store)
  {
  }

  /** Running the same stage twice: the second run returns what the first computed and
      changes nothing, provided the first saved a non-empty list. */
  lemma SecondRunIsCacheHit<D, V>(cfg: Config, store: Store<V>, data: seq<D>, prefix: string,
                                  func: D -> Result<V>, binary: bool)
    requires cfg.saveOutput && !cfg.forceCreate
    requires GetFile(cfg, prefix, binary) !in store
    requires ApplyEach(func, data).Ok? && data != []
    ensures var first := ExecCachedFunc(cfg, store, Some(data), prefix, func, binary);
            ExecCachedFunc(cfg, first.store, Some(data), prefix, func, binary) == first
  {
  }

  /** All non-binary stages share one cache file: once one of them has saved a non-empty
      list, every other non-binary stage, whatever its prefix, returns that list. */
  lemma JsonStagesShareCache<D, E, V>(cfg: Config, store: Store<V>,
                                      data1: seq<D>, prefix1: string, func1: D -> Result<V>,
                                      data2: Option<seq<E>>, prefix2: string, func2: E -> Result<V>)
    requires cfg.saveOutput && !cfg.forceCreate
    requires GetFile(cfg, prefix1, false) !in store
    requires ApplyEach(func1, data1).Ok? && data1 != []
    ensures var first := ExecCachedFunc(cfg, store, Some(data1), prefix1, func1, false);
            ExecCachedFunc(cfg, first.store, data2, prefix2, func2, false) == Step(first.result, first.store)
  {
  }
}

=== FILE: entities.dfy ===
/** The named-entity walk over a chunk tree (`extract_recurse`). */
module Entities {
  import opened Strings

  /** A chunk tree as the named-entity chunker produces it: an inner node carries a chunk
      category ("S" for the sentence root, "PERSON", "GPE", ... for entity chunks) and its
      children; a leaf is a (word, part-of-speech tag) pair. */
  datatype Tree =
    | Node(category: string, children: seq<Tree>)
    | Leaf(word: string, tag: string)

  /** The category of the sentence root, which names no entity of its own. */
  const SentenceCategory := "S"

  /** Leaves whose tag contains this text are proper nouns and name an entity. */
  const ProperNounTag := "NE"

  /** Every element is a (word, tag) leaf. */
  predicate AllLeaves(kids: seq<Tree>)
  {
    forall i :: 0 <= i < |kids| ==> kids[i].Leaf?
  }

  /** The shape the walk relies on, which the chunker's output has: every category is
      non-empty (an empty one would send a node down the leaf branch) and an entity chunk,
      a node other than "S", holds (word, tag) leaves only (its first components are joined
      as words). */
  predicate WellFormed(t: Tree)
  {
    match t
    case Leaf(_, _) => true
    case Node(category, kids) =>
      && category != ""
      && (category != SentenceCategory ==> AllLeaves(kids))
      && forall i :: 0 <= i < |kids| ==> WellFormed(kids[i])
  }

  /** The words of a run of leaves, in order. */
  function Words(kids: seq<Tree>): (words: seq<string>)
    requires AllLeaves(kids)
    ensures |words| == |kids|
    ensures forall i :: 0 <= i < |kids| ==> words[i] == kids[i].word
  {
    if kids == [] then [] else [kids[0].word] + Words(kids[1..])
  }

  /** The name an entity chunk stands for: its words joined by single spaces. */
  function ChunkText(kids: seq<Tree>): (text: string)
    requires AllLeaves(kids)
    ensures kids == [] ==> text == ""
    ensures |kids| == 1 ==> text == kids[0].word
    ensures |kids| >= 2 ==> text == ChunkText(kids[..|kids| - 1]) + " " + kids[|kids| - 1].word
  {
    if |kids| >= 2 then
      JoinSnoc(" ", Words(kids));
      assert Words(kids)[..|kids| - 1] == Words(kids[..|kids| - 1]);
      Join(" ", Words(kids))
    else
      Join(" ", Words(kids))
  }

  /** `w` is the name `t` contributes by itself, not counting its descendants: a leaf's word
      when its tag contains "NE", or an entity chunk's joined words. */
  ghost predicate OwnName(t: Tree, w: string)
  {
    match t
    case Leaf(word, tag) => w == word && IsSubstring(ProperNounTag, tag)
    case Node(category, kids) => category != SentenceCategory && AllLeaves(kids) && w == ChunkText(kids)
  }

  /** `w` is named by `t` itself or by some child, recursively. */
  ghost predicate Mentions(t: Tree, w: string)
  {
    || OwnName(t, w)
    || (t.Node? && exists i :: 0 <= i < |t.children| && Mentions(t.children[i], w))
  }

  /** `s` is `t` or lies somewhere below it. */
  ghost predicate IsSubtree(s: Tree, t: Tree)
  {
    || s == t
    || (t.Node? && exists i :: 0 <= i < |t.children| && IsSubtree(s, t.children[i]))
  }

  /** `extract_recurse`: the entity names of a chunk tree, each listed once. A node with a
      category other than "S" first adds its joined words; every node then adds the names
      of all its children; a leaf adds its word when its tag contains "NE". */
  function ExtractRecurse(t: Tree): (names: seq<string>)
    requires WellFormed(t)
    ensures NoDuplicates(names)
    ensures forall w :: w in names <==> Mentions(t, w)
    decreases t
  {
    match t
    case Leaf(word, tag) =>
      if Contains(tag, ProperNounTag) then [word] else []
    case Node(category, kids) =>
      var own := if category != SentenceCategory then [ChunkText(kids)] else [];
      Deduplicate(own + ExtendChildren(kids))
  }

  /** The names of the children, child by child, as the `extend` loop gathers them. */
  function ExtendChildren(kids: seq<Tree>): (names: seq<string>)
    requires forall i :: 0 <= i < |kids| ==> WellFormed(kids[i])
    ensures forall w :: w in names <==> exists i :: 0 <= i < |kids| && Mentions(kids[i], w)
    decreases kids
  {
    if kids == [] then []
    else
      var front := kids[..|kids| - 1];
      var names := ExtendChildren(front) + ExtractRecurse(kids[|kids| - 1]);
      assert forall i :: 0 <= i < |front| ==> front[i] == kids[i];
      names
  }

  /** A leaf contributes its word exactly when its tag contains "NE", and nothing else. */
  lemma LeafNames(word: string, tag: string)
    ensures ExtractRecurse(Leaf(word, tag)) == if IsSubstring(ProperNounTag, tag) then [word] else []
  {
  }

  /** A node's names are its own joined words (unless it is the "S" root) together with
      every name of every child: no child is skipped and nothing else is added. */
  lemma NodeNames(category: string, kids: seq<Tree>, w: string)
    requires WellFormed(Node(category, kids))
    ensures w in ExtractRecurse(Node(category, kids)) <==>
              || (category != SentenceCategory && w == ChunkText(kids))
              || exists i :: 0 <= i < |kids| && w in ExtractRecurse(kids[i])
  {
  }

  /** The sentence root adds no name of its own: its names are exactly its children's. */
  lemma SentenceRootAddsNothing(kids: seq<Tree>, w: string)
    requires WellFormed(Node(SentenceCategory, kids))
    ensures w in ExtractRecurse(Node(SentenceCategory, kids)) <==>
              exists i :: 0 <= i < |kids| && w in ExtractRecurse(kids[i])
  {
  }

  /** Everything below a well-formed tree is well-formed. */
  lemma {:induction false} SubtreeWellFormed(s: Tree, t: Tree)
    requires WellFormed(t) && IsSubtree(s, t)
    ensures WellFormed(s)
    decreases t
  {
    if s != t {
      var i :| 0 <= i < |t.children| && IsSubtree(s, t.children[i]);
      SubtreeWellFormed(s, t.children[i]);
    }
  }

  /** The subtree relation is transitive. */
  lemma {:induction false} SubtreeTransitive(r: Tree, s: Tree, t: Tree)
    requires IsSubtree(r, s) && IsSubtree(s, t)
    ensures IsSubtree(r, t)
    decreases t
  {
    if s != t {
      var i :| 0 <= i < |t.children| && IsSubtree(s, t.children[i]);
      SubtreeTransitive(r, s, t.children[i]);
    }
  }

  /** A global reading of the walk: `w` is extracted from `t` exactly when some node or
      leaf of `t` names `w` by itself. */
  lemma {:induction false} ExtractedIffNamedBelow(t: Tree, w: string)
    requires WellFormed(t)
    ensures w in ExtractRecurse(t) <==> exists s :: IsSubtree(s, t) && OwnName(s, w)
    decreases t
  {
    if w in ExtractRecurse(t) {
      if !OwnName(t, w) {
        var i :| 0 <= i < |t.children| && Mentions(t.children[i], w);
        var kid := t.children[i];
        ExtractedIffNamedBelow(kid, w);
        var s :| IsSubtree(s, kid) && OwnName(s, w);
        assert IsSubtree(s, t);
      } else {
        assert IsSubtree(t, t);
      }
    }
    if exists s :: IsSubtree(s, t) && OwnName(s, w) {
      var s :| IsSubtree(s, t) && OwnName(s, w);
      if s != t {
        var i :| 0 <= i < |t.children| && IsSubtree(s, t.children[i]);
        ExtractedIffNamedBelow(t.children[i], w);
        assert Mentions(t.children[i], w);
      }
    }
  }

  /** Every name extracted from a part of the tree is extracted from the whole. */
  lemma {:induction false} SubtreeNamesIncluded(s: Tree, t: Tree, w: string)
    requires WellFormed(t) && IsSubtree(s, t)
    ensures WellFormed(s)
    ensures w in ExtractRecurse(s) ==> w in ExtractRecurse(t)
  {
    SubtreeWellFormed(s, t);
    if w in ExtractRecurse(s) {
      ExtractedIffNamedBelow(s, w);
      var r :| IsSubtree(r, s) && OwnName(r, w);
      SubtreeTransitive(r, s, t);
      ExtractedIffNamedBelow(t, w);
    }
  }
}

=== FILE: errors.dfy ===
/** Failure-carrying values shared by the cache and the pipeline. */
module Errors {

  /** The exceptions the modelled code can raise. */
  datatype Error =
    /** `len(data)` on a stage input that is `None` (a `TypeError` in the source). */
    | NotIterable
    /** `process` with a language other than "german" or "english". */
    | UnknownLanguage
    /** Entity extraction applied to a value that is not a chunk tree of the shape
        the chunker produces; the source's behaviour on such a value is not modelled. */
    | BadShape

  datatype Option<+T> = None | Some(value: T)

  datatype Result<+T> = Ok(value: T) | Err(error: Error)
}

=== FILE: miner.dfy ===
/** The `InformationMiner` object: text normalisation in the constructor and the stage
    sequence of `process`, with the language dispatch between the two part-of-speech
    taggers. The library steps are parameters (`Library`); the output directory is the
    cache's abstract store. */
module Miner {
  import opened Errors
  import opened Entities
  import Cache

  /** A stage result as it is kept in memory and in the output directory. */
  datatype Value =
    | TextList(texts: seq<string>)
    | Tagged(pairs: seq<(string, string)>)
    | Chunked(tree: Tree)
    | Topics(topics: seq<seq<string>>)

  /** The values a caller passes as `text`: a single string, a list of strings, or `None`. */
  datatype TextArg =
    | Str(s: string)
    | StrList(items: seq<string>)
    | NoText

  /** Python truth of a `text` argument: a non-empty string or a non-empty list. */
  predicate Truthy(t: TextArg)
  {
    match t
    case Str(s) => s != ""
    case StrList(items) => items != []
    case NoText => false
  }

  /** What `for d in text` walks over: the one-character strings of a string, the items of a
      list; `None` cannot be walked. */
  function Elements(t: TextArg): (elements: Option<seq<string>>)
    ensures t.Str? ==> elements.Some? && |elements.value| == |t.s| &&
                       forall i :: 0 <= i < |t.s| ==> elements.value[i] == [t.s[i]]
    ensures t.StrList? ==> elements == Some(t.items)
    ensures t.NoText? ==> elements.None?
  {
    match t
    case Str(s) => Some(seq(|s|, i requires 0 <= i < |s| => [s[i]]))
    case StrList(items) => Some(items)
    case NoText => None
  }

  /** The library calls the pipeline makes, as uninterpreted total functions. */
  datatype Library = Library(
    /** `nltk.word_tokenize(d, language)` */
    wordTokenize: (string, string) -> Value,
    /** `nltk.pos_tag`, the English tagger */
    englishTag: Value -> Value,
    /** `POSTagger.tag`, the German tagger */
    germanTag: Value -> Value,
    /** `nltk.ne_chunk` */
    neChunk: Value -> Value,
    /** `nonnegative_matrix_factorization(d)`, which also reads the language (stop words) */
    topicModel: (string, string) -> Value)

  /** The fields of an `InformationMiner`; `files` is the content of its output directory. */
  datatype State = State(
    saveOutput: bool,
    language: string,
    outfile: string,
    forceCreate: bool,
    text: TextArg,
    tokens: Option<seq<Value>>,
    pos: Option<seq<Value>>,
    chunk: Option<seq<Value>>,
    ne: Option<seq<Value>>,
    topics: Option<seq<Value>>,
    files: Cache.Store<Value>)

  /** What `process` leaves behind: the miner's fields and, if it raised, the exception. */
  datatype Outcome = Outcome(state: State, error: Option<Error>)

  const German := "german"
  const English := "english"

  /** The stage prefixes; only chunking is a binary stage. */
  const TokenPrefix := "01_token_"
  const PosPrefix := "02_pos_"
  const ChunkPrefix := "03_chunk_"
  const NePrefix := "04_ne_"
  const TopicPrefix := "05_nmf"

  /** `InformationMiner(text, save_output, language, outdir, outfile, force_create)` on an
      output directory holding `files`: a single string is stored as a one-element list,
      any other `text` unchanged; no stage result exists yet. */
  function Create(text: TextArg, saveOutput: bool, language: string, outfile: string,
                  forceCreate: bool, files: Cache.Store<Value>): (m: State)
    ensures text.Str? ==> m.text == StrList([text.s])
    ensures !text.Str? ==> m.text == text
    ensures Elements(m.text).Some? <==> !text.NoText?
    ensures m.tokens.None? && m.pos.None? && m.chunk.None? && m.ne.None? && m.topics.None?
    ensures m.files == files && m.language == language && m.outfile == outfile
    ensures m.saveOutput == saveOutput && m.forceCreate == forceCreate
  {
    var stored := if text.Str? then StrList([text.s]) else text;
    State(saveOutput, language, outfile, forceCreate, stored, None, None, None, None, None, files)
  }

  /** The part of the miner that `get_file`, `save` and `get_cached` read. */
  function Settings(m: State): Cache.Config
  {
    Cache.Config(m.outfile, m.saveOutput, m.forceCreate)
  }

  /** The stage's file holds a non-empty list that `get_cached` returns. */
  predicate Cached(m: State, prefix: string, binary: bool)
  {
    Cache.IsHit(Cache.GetCached(Settings(m), m.files, prefix, binary))
  }

  /** A cache hit: the stage returns the stored list and writes nothing. */
  predicate LoadedFrom(m: State, step: Cache.Step<Value>, prefix: string, binary: bool)
  {
    var file := Cache.GetFile(Settings(m), prefix, binary);
    file in m.files && step == Cache.Step(Ok(m.files[file]), m.files)
  }

  /** The stage computed a list and handed it to `save` under its own prefix and binary flag. */
  predicate SavedAs(m: State, step: Cache.Step<Value>, prefix: string, binary: bool)
  {
    step.result.Ok? && step.store == Cache.Save(Settings(m), m.files, step.result.value, prefix, binary)
  }

  /** `tokenize`: the text's elements, each tokenized with the miner's language, under the
      prefix "01_token_" in the non-binary cache. */
  function Tokenize(m: State, lib: Library): (step: Cache.Step<Value>)
    ensures Cached(m, TokenPrefix, false) ==> LoadedFrom(m, step, TokenPrefix, false)
    ensures !Cached(m, TokenPrefix, false) && m.text.NoText? ==> step == Cache.Step(Err(NotIterable), m.files)
    ensures !Cached(m, TokenPrefix, false) && !m.text.NoText? ==>
              SavedAs(m, step, TokenPrefix, false) &&
              TokenizedEach(Elements(m.text).value, step.result.value, lib, m.language)
  {
    Cache.ExecCachedFunc(Settings(m), m.files, Elements(m.text), TokenPrefix,
                         (d: string) => Ok(lib.wordTokenize(d, m.language)), false)
  }

  /** `tag_pos_ger`: the German tagger over the token lists, under the prefix "02_pos_" in
      the non-binary cache. */
  function TagPosGer(m: State, lib: Library): (step: Cache.Step<Value>)
    ensures Cached(m, PosPrefix, false) ==> LoadedFrom(m, step, PosPrefix, false)
    ensures !Cached(m, PosPrefix, false) && m.tokens.None? ==> step == Cache.Step(Err(NotIterable), m.files)
    ensures !Cached(m, PosPrefix, false) && m.tokens.Some? ==>
              SavedAs(m, step, PosPrefix, false) && TaggedEach(m.tokens.value, step.result.value, lib.germanTag)
  {
    Cache.ExecCachedFunc(Settings(m), m.files, m.tokens, PosPrefix,
                         (d: Value) => Ok(lib.germanTag(d)), false)
  }

  /** `tag_pos_en`: the English tagger over the token lists, under the same prefix
      "02_pos_" in the non-binary cache. */
  function TagPosEn(m: State, lib: Library): (step: Cache.Step<Value>)
    ensures Cached(m, PosPrefix, false) ==> LoadedFrom(m, step, PosPrefix, false)
    ensures !Cached(m, PosPrefix, false) && m.tokens.None? ==> step == Cache.Step(Err(NotIterable), m.files)
    ensures !Cached(m, PosPrefix, false) && m.tokens.Some? ==>
              SavedAs(m, step, PosPrefix, false) && TaggedEach(m.tokens.value, step.result.value, lib.englishTag)
  {
    Cache.ExecCachedFunc(Settings(m), m.files, m.tokens, PosPrefix,
                         (d: Value) => Ok(lib.englishTag(d)), false)
  }

  /** `ne_chunk`: the chunker over the tagged lists, under the prefix "03_chunk_" in the
      binary cache, the only binary stage. */
  function NeChunk(m: State, lib: Library): (step: Cache.Step<Value>)
    ensures Cached(m, ChunkPrefix, true) ==> LoadedFrom(m, step, ChunkPrefix, true)
    ensures !Cached(m, ChunkPrefix, true) && m.pos.None? ==> step == Cache.Step(Err(NotIterable), m.files)
    ensures !Cached(m, ChunkPrefix, true) && m.pos.Some? ==>
              SavedAs(m, step, ChunkPrefix, true) && ChunkedEach(m.pos.value, step.result.value, lib)
  {
    Cache.ExecCachedFunc(Settings(m), m.files, m.pos, ChunkPrefix,
                         (d: Value) => Ok(lib.neChunk(d)), true)
  }

  /** The per-element function of `extract_entity_names`: the entity walk on a chunk tree. */
  function ExtractValue(v: Value): (r: Result<Value>)
    ensures r.Ok? <==> v.Chunked? && WellFormed(v.tree)
    ensures r.Ok? ==> r.value.TextList? && Strings.NoDuplicates(r.value.texts) &&
                      forall w :: w in r.value.texts <==> Mentions(v.tree, w)
    ensures r.Err? ==> r.error == BadShape
  {
    match v
    case Chunked(t) => if WellFormed(t) then Ok(TextList(ExtractRecurse(t))) else Err(BadShape)
    case _ => Err(BadShape)
  }

  /** `extract_entity_names`: the entity walk over every chunk tree, under the prefix
      "04_ne_" in the non-binary cache. */
  function ExtractEntityNames(m: State): (step: Cache.Step<Value>)
    ensures Cached(m, NePrefix, false) ==> LoadedFrom(m, step, NePrefix, false)
    ensures !Cached(m, NePrefix, false) && m.chunk.None? ==> step == Cache.Step(Err(NotIterable), m.files)
    ensures !Cached(m, NePrefix, false) && m.chunk.Some? ==>
              && (step.result.Ok? <==> forall i :: 0 <= i < |m.chunk.value| ==>
                                         m.chunk.value[i].Chunked? && WellFormed(m.chunk.value[i].tree))
              && (step.result.Ok? ==> SavedAs(m, step, NePrefix, false) && NamedEach(m.chunk.value, step.result.value))
              && (step.result.Err? ==> step == Cache.Step(Err(BadShape), m.files))
  {
    Cache.ExecCachedFunc(Settings(m), m.files, m.chunk, NePrefix, ExtractValue, false)
  }

  /** `nmf`: the topic model over the text's elements (not the tokens), with the miner's
      language, under the prefix "05_nmf" in the non-binary cache. */
  function Nmf(m: State, lib: Library): (step: Cache.Step<Value>)
    ensures Cached(m, TopicPrefix, false) ==> LoadedFrom(m, step, TopicPrefix, false)
    ensures !Cached(m, TopicPrefix, false) && m.text.NoText? ==> step == Cache.Step(Err(NotIterable), m.files)
    ensures !Cached(m, TopicPrefix, false) && !m.text.NoText? ==>
              && SavedAs(m, step, TopicPrefix, false)
              && |step.result.value| == |Elements(m.text).value|
              && forall i :: 0 <= i < |Elements(m.text).value| ==>
                   step.result.value[i] == lib.topicModel(Elements(m.text).value[i], m.language)
  {
    Cache.ExecCachedFunc(Settings(m), m.files, Elements(m.text), TopicPrefix,
                         (d: string) => Ok(lib.topicModel(d, m.language)), false)
  }

  /** The fields a run of `process` never changes: the settings and, once the first line
      has run, the text. */
  predicate SameSettings(a: State, b: State)
  {
    && a.saveOutput == b.saveOutput && a.language == b.language
    && a.outfile == b.outfile && a.forceCreate == b.forceCreate && a.text == b.text
  }

  /** `process(text)`: a truthy `text` replaces the stored text; then tokenizing, tagging
      with the tagger of the miner's language, chunking, entity extraction and topic
      modelling, in that order. Each field is assigned when its stage returns; an exception
      stops the sequence, leaving the fields and files written so far. A language other than
      "german" or "english" raises right after tokenizing. */
  function Process(m: State, arg: TextArg, lib: Library): (o: Outcome)
    ensures Truthy(arg) ==> o.state.text == arg
    ensures !Truthy(arg) ==> o.state.text == m.text
    ensures o.state.saveOutput == m.saveOutput && o.state.language == m.language
    ensures o.state.outfile == m.outfile && o.state.forceCreate == m.forceCreate
    ensures m.language != German && m.language != English ==>
              && (o.error == Some(UnknownLanguage) || o.error == Some(NotIterable))
              && o.state.pos == m.pos && o.state.chunk == m.chunk
              && o.state.ne == m.ne && o.state.topics == m.topics
    ensures o.error.None? ==>
              o.state.tokens.Some? && o.state.pos.Some? && o.state.chunk.Some? &&
              o.state.ne.Some? && o.state.topics.Some?
  {
    var m0 := m.(text := if Truthy(arg) then arg else m.text);
    var tok := Tokenize(m0, lib);
    if tok.result.Err? then Outcome(m0.(files := tok.store), Some(tok.result.error))
    else ProcessFromTagging(m0.(tokens := Some(tok.result.value), files := tok.store), lib)
  }

  /** The rest of `process` once the tokens are set: the language dispatch, then tagging. */
  function ProcessFromTagging(m: State, lib: Library): (o: Outcome)
    ensures SameSettings(o.state, m) && o.state.tokens == m.tokens
    ensures m.language != German && m.language != English ==> o == Outcome(m, Some(UnknownLanguage))
    ensures o.error.None? ==> o.state.pos.Some? && o.state.chunk.Some? && o.state.ne.Some? && o.state.topics.Some?
  {
    if m.language != German && m.language != English then Outcome(m, Some(UnknownLanguage))
    else
      var pos := if m.language == German then TagPosGer(m, lib) else TagPosEn(m, lib);
      if pos.result.Err? then Outcome(m.(files := pos.store), Some(pos.result.error))
      else ProcessFromChunking(m.(pos := Some(pos.result.value), files := pos.store), lib)
  }

  /** The rest of `process` once the tags are set: chunking. */
  function ProcessFromChunking(m: State, lib: Library): (o: Outcome)
    ensures SameSettings(o.state, m) && o.state.tokens == m.tokens && o.state.pos == m.pos
    ensures o.error.None? ==> o.state.chunk.Some? && o.state.ne.Some? && o.state.topics.Some?
  {
    var chunk := NeChunk(m, lib);
    if chunk.result.Err? then Outcome(m.(files := chunk.store), Some(chunk.result.error))
    else ProcessFromEntities(m.(chunk := Some(chunk.result.value), files := chunk.store), lib)
  }

  /** The rest of `process` once the chunk trees are set: entity extraction. */
  function ProcessFromEntities(m: State, lib: Library): (o: Outcome)
    ensures SameSettings(o.state, m) && o.state.tokens == m.tokens && o.state.pos == m.pos
    ensures o.state.chunk == m.chunk
    ensures o.error.None? ==> o.state.ne.Some? && o.state.topics.Some?
  {
    var ne := ExtractEntityNames(m);
    if ne.result.Err? then Outcome(m.(files := ne.store), Some(ne.result.error))
    else ProcessFromTopics(m.(ne := Some(ne.result.value), files := ne.store), lib)
  }

  /** The last step of `process`: topic modelling. */
  function ProcessFromTopics(m: State, lib: Library): (o: Outcome)
    ensures SameSettings(o.state, m) && o.state.tokens == m.tokens && o.state.pos == m.pos
    ensures o.state.chunk == m.chunk && o.state.ne == m.ne
    ensures o.error.None? ==> o.state.topics.Some?
  {
    var topics := Nmf(m, lib);
    if topics.result.Err? then Outcome(m.(files := topics.store), Some(topics.result.error))
    else Outcome(m.(topics := Some(topics.result.value), files := topics.store), None)
  }

  /** A German miner only ever uses the German tagger: swapping the English one changes
      nothing. */
  lemma GermanIgnoresEnglishTagger(m: State, arg: TextArg, lib: Library, other: Value -> Value)
    requires m.language == German
    ensures Process(m, arg, lib) == Process(m, arg, lib.(englishTag := other))
  {
  }

  /** An English miner only ever uses the English tagger: swapping the German one changes
      nothing. */
  lemma EnglishIgnoresGermanTagger(m: State, arg: TextArg, lib: Library, other: Value -> Value)
    requires m.language == English
    ensures Process(m, arg, lib) == Process(m, arg, lib.(germanTag := other))
  {
  }

  /** Any other language raises once tokenizing has succeeded, and nothing after
      tokenizing runs: neither tagger, the chunker, the entity walk nor the topic model
      can affect the outcome. */
  lemma UnknownLanguageStopsAfterTokens(m: State, arg: TextArg, lib: Library, lib': Library)
    requires m.language != German && m.language != English
    requires lib'.wordTokenize == lib.wordTokenize
    ensures Process(m, arg, lib) == Process(m, arg, lib')
    ensures Truthy(arg) || !m.text.NoText? ==> Process(m, arg, lib).error == Some(UnknownLanguage)
  {
  }

  /** Because every non-binary stage shares the file ".json", a saving run that starts
      without that file stores the tokens there, and the tagging, entity and topic stages
      then all load the tokens back instead of computing anything. The chunker, the one
      binary stage, therefore receives the token lists rather than tagged ones: unless its
      own file is already cached, each chunk value is the chunker applied to a token list.
      That the run raises nothing rests on the store accepting every write, which stands
      for an existing output directory, and on the chunker being total. */
  lemma JsonStagesEchoTokens(m: State, arg: TextArg, lib: Library)
    requires m.saveOutput && !m.forceCreate && Cache.GetFile(Settings(m), TokenPrefix, false) !in m.files
    requires m.language == German || m.language == English
    requires var text := if Truthy(arg) then arg else m.text;
             Elements(text).Some? && Elements(text).value != []
    ensures var o := Process(m, arg, lib);
            && o.error.None?
            && o.state.pos == o.state.tokens
            && o.state.ne == o.state.tokens
            && o.state.topics == o.state.tokens
            && (Cache.GetFile(Settings(m), ChunkPrefix, true) !in m.files ==>
                  ChunkedEach(o.state.tokens.value, o.state.chunk.value, lib))
  {
    var m0 := m.(text := if Truthy(arg) then arg else m.text);
    var cfg := Settings(m0);
    var elements := Elements(m0.text).value;
    var tokenFunc := (d: string) => Ok(lib.wordTokenize(d, m0.language));
    var tok := Tokenize(m0, lib);
    assert tok == Cache.ExecCachedFunc(cfg, m0.files, Some(elements), TokenPrefix, tokenFunc, false);
    assert Cache.ApplyEach(tokenFunc, elements).Ok?;
    var m1 := m0.(tokens := Some(tok.result.value), files := tok.store);
    var tagFunc := if m1.language == German then (d: Value) => Ok(lib.germanTag(d))
                   else (d: Value) => Ok(lib.englishTag(d));
    Cache.JsonStagesShareCache(cfg, m0.files, elements, TokenPrefix, tokenFunc, m1.tokens, PosPrefix, tagFunc);
    var pos := if m1.language == German then TagPosGer(m1, lib) else TagPosEn(m1, lib);
    assert pos == Cache.Step(tok.result, tok.store);
    var m2 := m1.(pos := Some(pos.result.value), files := pos.store);
    var chunk := NeChunk(m2, lib);
    assert chunk.result.Ok?;
    Cache.BinaryFilesDistinct(cfg, ChunkPrefix, ChunkPrefix, NePrefix);
    if Cache.GetFile(cfg, ChunkPrefix, true) !in m0.files {
      assert Cache.GetFile(cfg, ChunkPrefix, true) !in m2.files;
      assert ChunkedEach(tok.result.value, chunk.result.value, lib);
    }
    var m3 := m2.(chunk := Some(chunk.result.value), files := chunk.store);
    Cache.JsonStagesShareFile(cfg, TokenPrefix, cfg, NePrefix);
    assert Cache.GetFile(cfg, NePrefix, false) in m3.files;
    assert m3.files[Cache.GetFile(cfg, NePrefix, false)] == tok.result.value;
    var ne := ExtractEntityNames(m3);
    assert ne.result == tok.result;
    var m4 := m3.(ne := Some(ne.result.value), files := ne.store);
    Cache.JsonStagesShareFile(cfg, TokenPrefix, cfg, TopicPrefix);
    var topics := Nmf(m4, lib);
    assert topics.result == tok.result;
  }

  /** Each token list is the tokenization of the matching text element. */
  predicate TokenizedEach(elements: seq<string>, tokens: seq<Value>, lib: Library, language: string)
  {
    |tokens| == |elements| && forall i :: 0 <= i < |elements| ==> tokens[i] == lib.wordTokenize(elements[i], language)
  }

  /** Each tagged list is `tagger` applied to the matching token list. */
  predicate TaggedEach(tokens: seq<Value>, pos: seq<Value>, tagger: Value -> Value)
  {
    |pos| == |tokens| && forall i :: 0 <= i < |tokens| ==> pos[i] == tagger(tokens[i])
  }

  /** Each chunk value is the chunker applied to the matching tagged list. */
  predicate ChunkedEach(pos: seq<Value>, chunk: seq<Value>, lib: Library)
  {
    |chunk| == |pos| && forall i :: 0 <= i < |pos| ==> chunk[i] == lib.neChunk(pos[i])
  }

  /** Each chunk value is a well-formed tree and the matching entry lists its entity names,
      each once, in no particular order. */
  ghost predicate NamedEach(chunk: seq<Value>, ne: seq<Value>)
  {
    && |ne| == |chunk|
    && forall i :: 0 <= i < |chunk| ==>
         && chunk[i].Chunked? && WellFormed(chunk[i].tree)
         && ne[i].TextList? && Strings.NoDuplicates(ne[i].texts)
         && forall w :: w in ne[i].texts <==> Mentions(chunk[i].tree, w)
  }

  /** The chunker yields trees of the shape it documents. */
  ghost predicate ChunkerWellFormed(lib: Library)
  {
    forall v :: lib.neChunk(v).Chunked? && WellFormed(lib.neChunk(v).tree)
  }

  /** The entity and topic stages of a run that saves nothing on an empty directory. */
  lemma FreshFromEntities(m: State, lib: Library)
    requires !m.saveOutput && m.files == map[]
    requires m.chunk.Some? && Elements(m.text).Some?
    requires forall i :: 0 <= i < |m.chunk.value| ==>
               m.chunk.value[i].Chunked? && WellFormed(m.chunk.value[i].tree)
    ensures var o := ProcessFromEntities(m, lib);
            o.error.None? && o.state.files == map[] && NamedEach(m.chunk.value, o.state.ne.value)
  {
    var chunks := m.chunk.value;
    var ne := ExtractEntityNames(m);
    assert ne.result.Ok?;
    forall i | 0 <= i < |chunks|
      ensures ne.result.value[i] == TextList(ExtractRecurse(chunks[i].tree))
    {
      assert ExtractValue(chunks[i]) == Ok(ne.result.value[i]);
    }
  }

  /** The stages from chunking on, of a run that saves nothing on an empty directory. */
  lemma FreshFromChunking(m: State, lib: Library)
    requires !m.saveOutput && m.files == map[]
    requires m.pos.Some? && Elements(m.text).Some? && ChunkerWellFormed(lib)
    ensures var o := ProcessFromChunking(m, lib);
            && o.error.None? && o.state.files == map[]
            && ChunkedEach(m.pos.value, o.state.chunk.value, lib)
            && NamedEach(o.state.chunk.value, o.state.ne.value)
  {
    var chunk := NeChunk(m, lib);
    var m' := m.(chunk := Some(chunk.result.value), files := chunk.store);
    assert ChunkedEach(m.pos.value, chunk.result.value, lib);
    FreshFromEntities(m', lib);
  }

  /** The stages from tagging on, of a run that saves nothing on an empty directory. */
  lemma FreshFromTagging(m: State, lib: Library)
    requires !m.saveOutput && m.files == map[]
    requires m.language == German || m.language == English
    requires m.tokens.Some? && Elements(m.text).Some? && ChunkerWellFormed(lib)
    ensures var o := ProcessFromTagging(m, lib);
            && o.error.None? && o.state.files == map[]
            && (m.language == German ==> TaggedEach(m.tokens.value, o.state.pos.value, lib.germanTag))
            && (m.language == English ==> TaggedEach(m.tokens.value, o.state.pos.value, lib.englishTag))
            && ChunkedEach(o.state.pos.value, o.state.chunk.value, lib)
            && NamedEach(o.state.chunk.value, o.state.ne.value)
  {
    var pos := if m.language == German then TagPosGer(m, lib) else TagPosEn(m, lib);
    if m.language == German {
      assert TaggedEach(m.tokens.value, pos.result.value, lib.germanTag);
    } else {
      assert TaggedEach(m.tokens.value, pos.result.value, lib.englishTag);
    }
    FreshFromChunking(m.(pos := Some(pos.result.value), files := pos.store), lib);
  }

  /** A run that saves nothing, on an empty output directory, computes every stage from
      the one before: each element of the text is tokenized, each token list tagged by the
      language's tagger, each tagged list chunked, and each chunk tree walked for its
      entity names, provided the chunker yields trees of the shape it documents. */
  lemma FreshRunExtractsEntities(m: State, arg: TextArg, lib: Library)
    requires !m.saveOutput && m.files == map[]
    requires m.language == German || m.language == English
    requires Elements(if Truthy(arg) then arg else m.text).Some?
    requires ChunkerWellFormed(lib)
    ensures var o := Process(m, arg, lib);
            && o.error.None? && o.state.files == map[]
            && TokenizedEach(Elements(o.state.text).value, o.state.tokens.value, lib, m.language)
            && (m.language == German ==> TaggedEach(o.state.tokens.value, o.state.pos.value, lib.germanTag))
            && (m.language == English ==> TaggedEach(o.state.tokens.value, o.state.pos.value, lib.englishTag))
            && ChunkedEach(o.state.pos.value, o.state.chunk.value, lib)
            && NamedEach(o.state.chunk.value, o.state.ne.value)
  {
    var m0 := m.(text := if Truthy(arg) then arg else m.text);
    var tok := Tokenize(m0, lib);
    assert TokenizedEach(Elements(m0.text).value, tok.result.value, lib, m.language);
    FreshFromTagging(m0.(tokens := Some(tok.result.value), files := tok.store), lib);
  }
}

=== FILE: strings.dfy ===
/** String and list helpers standing for the Python built-ins the miner uses:
    the substring test `p in s`, `sep.join(parts)` and `list(set(xs))`. */
module Strings {

  /** `p` occurs in `s` starting at index `i`. */
  predicate OccursAt(p: string, s: string, i: int)
  {
    0 <= i && i + |p| <= |s| && s[i..i + |p|] == p
  }

  /** Python's `p in s` on strings, stated as "some position of `s` starts a copy of `p`". */
  ghost predicate IsSubstring(p: string, s: string)
  {
    exists i :: OccursAt(p, s, i)
  }

  /** Dropping the first character of `s` shifts every occurrence one place left. */
  lemma DropFirstCharacter(p: string, s: string)
    requires |s| > 0 && !OccursAt(p, s, 0)
    ensures IsSubstring(p, s) <==> IsSubstring(p, s[1..])
  {
    if IsSubstring(p, s) {
      var i :| OccursAt(p, s, i);
      assert i >= 1;
      assert s[1..][i - 1..i - 1 + |p|] == s[i..i + |p|];
      assert OccursAt(p, s[1..], i - 1);
    }
    if IsSubstring(p, s[1..]) {
      var j :| OccursAt(p, s[1..], j);
      assert s[1..][j..j + |p|] == s[j + 1..j + 1 + |p|];
      assert OccursAt(p, s, j + 1);
    }
  }

  /** Executable substring test: scans `s` from the left for a copy of `p`. */
  function Contains(s: string, p: string): (found: bool)
    ensures found <==> IsSubstring(p, s)
    decreases |s|
  {
    if |s| < |p| then
      assert forall i :: !OccursAt(p, s, i);
      false
    else if s[..|p|] == p then
      assert OccursAt(p, s, 0);
      true
    else
      DropFirstCharacter(p, s);
      Contains(s[1..], p)
  }

  /** Total length of all parts. */
  function TotalLength(parts: seq<string>): nat
  {
    if parts == [] then 0 else |parts[0]| + TotalLength(parts[1..])
  }

  /** Python's `sep.join(parts)`: the parts in order with `sep` between neighbours. */
  function Join(sep: string, parts: seq<string>): (joined: string)
    ensures parts == [] ==> joined == []
    ensures parts != [] ==> |joined| == TotalLength(parts) + (|parts| - 1) * |sep|
    ensures parts != [] ==> joined[..|parts[0]|] == parts[0]
  {
    if |parts| == 0 then ""
    else if |parts| == 1 then parts[0]
    else parts[0] + sep + Join(sep, parts[1..])
  }

  /** Joining a list of at least two parts is joining all but the last, then the separator,
      then the last part; together with the one-part case this fixes every character. */
  lemma {:induction false} JoinSnoc(sep: string, parts: seq<string>)
    requires |parts| >= 2
    ensures Join(sep, parts) == Join(sep, parts[..|parts| - 1]) + sep + parts[|parts| - 1]
    decreases |parts|
  {
    if |parts| > 2 {
      JoinSnoc(sep, parts[1..]);
      assert parts[1..][..|parts[1..]| - 1] == parts[..|parts| - 1][1..];
    }
  }

  /** No element occurs twice. */
  predicate NoDuplicates(s: seq<string>)
  {
    forall i, j :: 0 <= i < j < |s| ==> s[i] != s[j]
  }

  /** `list(set(s))`: the distinct elements of `s`. Python lists them in hash order, which
      varies between runs; this definition lists them in order of first occurrence. */
  function Deduplicate(s: seq<string>): (r: seq<string>)
    ensures NoDuplicates(r)
    ensures forall x :: x in r <==> x in s
    ensures |r| <= |s|
  {
    if s == [] then []
    else
      var rest := Deduplicate(s[..|s| - 1]);
      var last := s[|s| - 1];
      assert s == s[..|s| - 1] + [last];
      if last in rest then rest else rest + [last]
  }
}
